=== FILE: README.md ===
# Citizen-services dashboard: the data pipeline of `script.js`

The dashboard loads a published spreadsheet as CSV text and shows the records in a table, with four
filter dropdowns (District, Mandal, Secretariat, Status), a summary line (total, pending,
average SLA days), three charts and a CSV export. This project models the part of `script.js`
that turns data into data. The page itself (the DOM, Chart.js, the network) is left out.

The model covers these steps:

- **Loading** (`fetchData`): the text is split on line breaks and each line on commas. Line 0 holds
  the headers; every later line becomes a record that maps `headers[i]` to its i-th cell.
- **Filter options** (`populateFilters` / `populateDropdown`): the distinct values of a column,
  sorted by `sort()`.
- **Row filtering** (`getFilteredData`): four optional equality constraints.
- **Counting** (`countBy`) for the bar, line and pie charts, and the sorted date series of the line
  chart.
- **Summary** (`renderSummary`): the row count, the rows whose Status contains "Pending", and the
  rounded mean of `parseInt(r["SLA Days"]) || 0`.
- **CSV export** (`exportTableToCSV`) and the **search** predicate of the keyup handler.

The model follows these JavaScript behaviours:

- Reading a missing field gives `undefined` (`Option.None`).
- `String(undefined)` is the text "undefined". It is both an `<option>` value and a `countBy` key.
- `headers[i]` past the end of the header line is the key "undefined".
- In `Object.fromEntries`, a later duplicate key wins.
- `sort()` puts `undefined` last and orders strings by character code.
- `new Set` keeps the first occurrence of each value.
- `parseInt` skips leading white space, reads an optional sign, and switches to radix 16 after a
  `0x` prefix. NaN is `None`, and `|| 0` turns it into 0.
- `Math.round` rounds half up.
- `toLowerCase` is taken as ASCII only.

The modules are:

- `JsString`: split, join, `includes`, lower case.
- `JsOrder`: string order, `sort()` and `Set`.
- `JsParseInt`: `parseInt`.
- `Ingest`: loading.
- `Filters`: dropdown options and filtering.
- `Aggregate`: `countBy`, the trend series and the summary.
- `Table`: export and search.
- `Dashboard`: a `Dropdown` class whose option list is appended to, and an `App` class holding
  `rawData` and the four dropdowns, with the page's handlers as methods.

The text of a load arrives as a parameter. The dropdown values are the `selected` fields of the
`Dropdown` objects.

A CSV text that ends in a line break yields, in `script.js`, a last record holding only the first
header, mapped to "" (`{District: ""}` for a sheet whose first column is District). Its missing
Status makes line 56 throw on every render that keeps that record. Those renders draw neither the
charts nor the table. They include the first render after the page loads, when no dropdown is set
yet, and the render after `resetFilters`. A render with a non-empty value in any dropdown filters
that record out; the render then succeeds if every other kept record has a Status.
`Aggregate.TrailingNewlineBreaksSummary` proves the throw for any such text whose first header is not
Status, rendered with no dropdown set. `Dashboard.TrailingNewlineSample` proves it for a four-line
sample.

## Model

| member | source | states |
|---|---|---|
| Ingest.ParseCsv | script.js:10-12 | one record per line after the header, so one per line break in the text |
| Ingest.RecordKeys | script.js:12 | a record's keys are exactly `headers[i]` (or "undefined" past the header line) for the cell positions its line has |
| Ingest.RecordField | script.js:12 | field `headers[i]` holds the i-th cell unless a later cell has the same header (later duplicates win) |
| Ingest.ParseCsvRoundTrip | script.js:10-12 | for header and data lines free of commas and line breaks, with distinct headers and each data line having as many cells as the header line, every record maps each header to its own cell, in line order |
| Ingest.TableOfJoined | script.js:10 | splitting joined comma-free lines on line breaks and commas gives back the cells |
| Ingest.BlankLastLine | script.js:10-12 | an empty last line becomes a record holding only the first header, mapped to "" |
| Ingest.TrailingNewlineRecord | script.js:10-12 | a text ending in a line break ends with such a one-field record |
| JsString.Split | script.js:10 | `split` gives one more piece than there are separators, and no piece contains the separator |
| JsString.JoinSplit | script.js:10 | joining the pieces of a split with the separator restores the text |
| JsString.SplitJoin | script.js:10 | splitting a join of separator-free pieces restores the pieces |
| JsString.SplitAtSeparator | script.js:10 | a split at one separator is the concatenation of the splits on either side |
| JsString.SplitTrailingSeparator | script.js:10 | a text ending in the separator splits into at least two pieces, the last empty |
| JsString.ContainsIff | script.js:56 | `includes` holds exactly when the text occurs at some position |
| JsOrder.LtTransitive | script.js:26 | the code-unit order of `sort()` is transitive |
| JsOrder.LtTrichotomy | script.js:26 | any two different strings are ordered one way or the other |
| JsOrder.SortStrings | script.js:26 | sorting keeps every string with its multiplicity |
| JsOrder.SortStringsSorted | script.js:26 | sorting gives an ascending sequence |
| JsOrder.SortDistinct | script.js:26 | sorting distinct strings gives a strictly ascending sequence without duplicates |
| JsOrder.Distinct | script.js:18-21 | `[...new Set(xs)]` has no duplicates and the same members as `xs` |
| JsOrder.JsSortMembers | script.js:26 | `sort()` on cell values keeps exactly the same values |
| JsOrder.JsSortAscending | script.js:26 | on distinct cell values, `sort()` ascends strictly, with `undefined` only last |
| JsOrder.JsSortDistinct | script.js:26 | on distinct cell values, `sort()` is ascending with `undefined` last, has no duplicates and has the same members |
| JsParseInt.TrimStart | script.js:57 | `parseInt` skips exactly the leading white space |
| JsParseInt.DigitRun | script.js:57 | the digits read are the longest prefix of digits of the radix |
| JsParseInt.ParseIntDecimal | script.js:57 | a decimal numeral, bare or after `-` or `+`, parses to its value whatever follows it |
| JsParseInt.ParseIntSkipsSpace | script.js:57 | leading white space does not change the result |
| JsParseInt.ParseIntNoDigits | script.js:57 | a text starting with no digit, sign or white space is NaN, which the `or 0` fallback turns into 0 |
| JsParseInt.ParseIntUndefined | script.js:57 | a missing "SLA Days" cell, read as "undefined", counts 0 |
| JsParseInt.HexNumeral | script.js:57 | after `0x` or `0X` the digits are read in radix 16 |
| JsParseInt.ParseIntHexPrefix | script.js:57 | "0x1A" parses to 26 |
| Filters.FilterRows | script.js:39-44 | the kept rows are an order-preserving subsequence of the data, each matches the selection, and each matching row is kept as often as it occurs |
| Filters.FilterNoSelection | script.js:40-43 | with all four selections empty every row is kept |
| Filters.NarrowsMatches | script.js:40-43 | a row matching a narrower selection matches the wider one |
| Filters.FilterNarrowing | script.js:40-43 | adding constraints gives a subsequence of the earlier result, never more rows |
| Filters.FilterIdempotent | script.js:39-44 | filtering twice with the same selection is filtering once |
| Filters.OptionsShape | script.js:18-26 | a dropdown's options (the distinct column values of lines 18-21, sorted at line 26) are strictly ascending with `undefined` last, have no duplicates, and are exactly the values of the column |
| Filters.OptionSelectsRows | script.js:39-44 | choosing an option for a defined, non-empty value (offered at lines 18-21), with the other three dropdowns cleared, leaves at least one row |
| Filters.OnlyKeeps | script.js:40-43 | a row kept by a one-column selection holds exactly the selected text in that column (`===`) |
| Filters.OnlyKeepsNothing | script.js:40-43 | a one-column selection for a text no cell of that column holds keeps no row |
| Filters.UndefinedOptionSelects | script.js:39-44 | the "undefined" option is offered only when some record lacks the column; it keeps just the rows whose cell is the text "undefined", never the records lacking the column, and none at all when no cell holds that text |
| Aggregate.CountBy | script.js:86-91 | the accumulator built row by row equals the tally of the key column |
| Aggregate.TallyCounts | script.js:86-91 | the tally's keys are exactly the values present; each count is the number of rows with that value, at least 1 |
| Aggregate.TallyStep | script.js:88 | one row raises its own value's count by one (from 0 if absent) and changes nothing else |
| Aggregate.OccurrencesPresent | script.js:88 | a value taken from a row occurs at least once |
| Aggregate.OccurrencesAbsent | script.js:88 | a value no row has occurs zero times |
| Aggregate.CountInAll | script.js:86-91 | the counts over a set of keys covering every row add up to the number of rows |
| Aggregate.SumCountsIn | script.js:86-91 | summing the tally over distinct labels counts the rows whose value is among them |
| Aggregate.TallyPartition | script.js:86-91 | the counts over all keys sum to the number of rows |
| Aggregate.PairsShape | script.js:77 | the series pairs each label, in order, with its count |
| Aggregate.TrendLabelsAreKeys | script.js:75-76 | the line chart's labels are strictly ascending, distinct, and exactly the `countBy` keys |
| Aggregate.TrendShape | script.js:75-77 | the line chart series has strictly ascending labels, exactly the keys, each with its own positive count, and the counts sum to the number of rows |
| Aggregate.PendingRows | script.js:56 | the rows whose Status contains "Pending", in order, or the first row without a Status, where the code throws |
| Aggregate.RoundHalfUp | script.js:57 | the result is within one half of `sum / total`, rounding halves up |
| Aggregate.AverageSla | script.js:57 | 0 for no rows, where `0 / 0` is NaN, otherwise the rounded mean of the SLA values |
| Aggregate.RenderSummary | script.js:55-57 | succeeds exactly when every row has a Status; then total is the row count, pending the number of rows whose Status contains "Pending" (at most the total), and avgSla the rounded mean |
| Aggregate.PendingRowsCount | script.js:56 | the pending rows kept by the filter are as many as the rows counted one by one as pending |
| Aggregate.AverageUnique | script.js:57 | the rounded mean is the only integer within one half of the mean |
| Aggregate.SumBounds | script.js:57 | per-row bounds bound the sum |
| Aggregate.RoundedMeanWithin | script.js:57 | a rounded mean lies between bounds of the mean |
| Aggregate.AverageWithin | script.js:57 | the average SLA lies between the smallest and the largest per-row SLA |
| Aggregate.MissingSlaIsZero | script.js:57 | a row without "SLA Days" contributes 0 |
| Aggregate.TrailingNewlineBreaksSummary | script.js:56 | a text ending in a line break (first header not "Status") yields, through lines 10-12, a row without Status, so the summary throws |
| Table.JoinKeepsOut | script.js:102 | joining parts free of a character, with another separator, keeps the character out |
| Table.QuotedLineKeepsOut | script.js:102 | an export line contains no character that none of its cells has, other than `,` and `"` |
| Table.ExportLineCount | script.js:102 | with at least one row and no line break in a cell, the export has exactly one line per table row, each the row's quoted cells |
| Table.ExportRoundTrip | script.js:102 | cells without commas or line breaks are read back from the export unchanged |
| Table.VisibleIff | script.js:118-122 | a row is shown exactly when its lower-cased text contains the lower-cased query somewhere |
| Table.EmptyQueryShowsAll | script.js:118-122 | an empty query shows every row |
| Table.LongerQueryHidesMore | script.js:118-122 | a row shown for a longer query is shown for every prefix of it |
| JsString.Join | script.js:102 | definition of `join`; properties in `JsString.JoinSplit`, `JsString.SplitJoin` and `Table.JoinKeepsOut` |
| JsString.AsciiLower | script.js:118-121 | definition of `toLowerCase` on ASCII letters; properties in `JsString.AsciiLowerIdempotent`, `JsString.AsciiLowerAppend` and `Table.VisibleIff` |
| JsString.AsciiLowerIdempotent | script.js:118-121 | lower-casing keeps the length, leaves no upper-case ASCII letter, and a second lower-casing changes nothing |
| JsString.AsciiLowerAppend | script.js:121 | lower-casing a concatenation lower-cases each part |
| JsString.Contains | script.js:56 | definition of `includes`; properties in `JsString.ContainsIff` |
| JsOrder.Lt | script.js:26 | definition of the string order of `sort()`; properties in `JsOrder.LtTransitive` and `JsOrder.LtTrichotomy` |
| JsOrder.JsSort | script.js:26 | definition of `sort()` on cell values; properties in `JsOrder.JsSortDistinct` |
| JsParseInt.ParseInt | script.js:57 | definition of `parseInt`; properties in `JsParseInt.ParseIntDecimal`, `JsParseInt.ParseIntSkipsSpace`, `JsParseInt.ParseIntNoDigits` and `JsParseInt.HexNumeral` |
| JsParseInt.ParseIntOrZero | script.js:57 | definition of `parseInt` with the `or 0` fallback; properties in `JsParseInt.ParseIntUndefined` and `JsParseInt.ParseIntNoDigits` |
| Ingest.Table | script.js:10 | definition of the line and cell split; properties in `Ingest.TableOfJoined` |
| Ingest.Record | script.js:12 | definition of one record; properties in `Ingest.RecordKeys` and `Ingest.RecordField` |
| Filters.Matches | script.js:39-44 | definition of the filter callback; properties in `Filters.FilterRows` and `Filters.NarrowsMatches` |
| Filters.Options | script.js:18-26 | definition of a dropdown's option list; properties in `Filters.OptionsShape` |
| Aggregate.Tally | script.js:86-91 | definition of the counts `countBy` returns; properties in `Aggregate.TallyCounts` and `Aggregate.TallyPartition` |
| Aggregate.TrendLabels | script.js:76 | definition of the sorted keys; properties in `Aggregate.TrendLabelsAreKeys` |
| Aggregate.Trend | script.js:75-77 | definition of the line chart series; properties in `Aggregate.TrendShape` |
| Aggregate.IsPending | script.js:56 | definition of the pending test; properties in `Aggregate.PendingRows` |
| Aggregate.PendingCount | script.js:56 | definition of the pending count; tied to the filter in `Aggregate.PendingRowsCount` |
| Aggregate.SlaDays | script.js:57 | definition of one row's SLA; properties in `Aggregate.MissingSlaIsZero` |
| Aggregate.SlaSum | script.js:57 | definition of the `reduce` sum; properties in `Aggregate.AverageWithin` |
| Table.ExportCsv | script.js:102 | definition of the export text; properties in `Table.ExportLineCount` and `Table.ExportRoundTrip` |
| Table.Visible | script.js:118-122 | definition of the search test; properties in `Table.VisibleIff` |
| Dashboard.Render | script.js:47-52 | definition of what one `renderAll` shows; `Dashboard.App.RenderAll` is proved to compute it |
| Dashboard.Dropdown.Populate | script.js:24-31 | one option is appended per value, in the given order, with the text `String(v)`; the current value is kept |
| Dashboard.App.constructor | script.js:5 | the page starts with no data, empty dropdowns and no selection |
| Dashboard.App.PopulateFilters | script.js:17-22 | each dropdown gets its column's sorted distinct values appended; the selection is kept |
| Dashboard.App.GetFilteredData | script.js:34-45 | the rows the four dropdown values admit |
| Dashboard.App.RenderAll | script.js:47-52 | the view (table rows, summary, three chart series) for the current selection, or the summary's error |
| Dashboard.App.FetchData | script.js:7-15 | `rawData` is the parsed text, the dropdowns are populated, and the view is rendered for the kept selection |
| Dashboard.App.ResetFilters | script.js:110-113 | all four dropdowns are cleared, their options kept, and the view shows every row when it renders |
| Dashboard.FourLinesFourRecords | script.js:10-12 | three data lines each ended by a line break give four records, the last holding only the first header, and (first header, before the header line's first comma, not "Status") rendering unfiltered throws at line 56 |
| Dashboard.TrailingNewlineSample | script.js:10-12 | the sample with a trailing line break gives four records, the last `{District: ""}`, and rendering with no dropdown set throws at line 56 |

## Left out

- Network: `fetch` and reading the response (script.js:8-9). The CSV text is a parameter of
  `Dashboard.App.FetchData`.
- DOM and page wiring:
  - the creation of `<option>` elements (script.js:27-30), modelled as appending their value text;
  - the table HTML of `renderTable` and its unescaped injection (script.js:93-97). The table's
    rows are the view's `rows`;
  - showing and hiding rows on search (script.js:119-123), modelled as the `Table.Visible`
    predicate over a row's text;
  - the event listeners (script.js:116-117);
  - the placeholder option of the page markup. Dashboard.Dropdown.Populate keeps the current
    value on the assumption that each `<select>` starts with a placeholder option of value "",
    which stays selected while options are appended. Without one, the browser would select the first
    appended option, and `getFilteredData` would filter by it.
- Chart.js rendering (script.js:67-84). Only the counts and the sorted date series that feed it are
  modelled. Dashboard.Render assumes the three `new Chart(...)` calls (script.js:70, 77, 83) return
  normally. The library version is not fixed by `script.js`, and Chart.js 3 and later throw when a
  chart is created on a canvas that already holds one. With such a version, every render after the
  first would stop before `renderTable` (script.js:51).
- Export plumbing:
  - the Blob, object URL and download anchor (script.js:103-107);
  - `innerText` of the table cells. The export takes each table row's cell texts as a parameter.
- Table.ExportLineCount: stated for at least one row. An empty table exports "", which is one
  (empty) line.
- Floating point: `sum / total` and `Math.round` (script.js:57) are restated in exact integer
  arithmetic. This agrees with the doubles while every partial sum stays below 2^52 in
  magnitude. Below that bound the division's rounding error is less than 1/(2·total), so it cannot
  move the quotient across a rounding boundary. Above it, a sum of about 3·2^51 over 3 rows can round
  differently.
- JsParseInt.ParseInt: magnitudes are unbounded integers. It does not model the loss of precision
  past 2^53 or the rounding of very long numerals.
- Characters are Dafny characters, not UTF-16 code units. Sorting orders by character value, which
  differs from code-unit order only for characters outside the Basic Multilingual Plane.
- JsString.AsciiLower: lower-cases ASCII letters only. JavaScript's `toLowerCase` maps all of
  Unicode.
- Aggregate.CountBy: keys are plain strings. The `{}` accumulator's inherited properties
  ("constructor", "__proto__", ...) are not modelled. Neither is the integer-first key order of
  `Object.keys`, which affects only the label order of the bar and pie charts; those tallies are
  maps.

=== FILE: aggregate.dfy ===
/**
 * What the dashboard computes over the filtered rows: `countBy` (the data of
 * the three charts), the sorted trend series, and the summary line.
 */
module Aggregate {
  import opened Wrappers
  import opened JsString
  import opened JsOrder
  import opened JsParseInt
  import opened Ingest
  import opened Filters

  /** `r[key]` as a property key of the count object: `undefined` becomes "undefined". */
  function KeyOf(r: Row, key: string): string
  {
    Display(Get(r, key))
  }

  /** `data.map(r => String(r[key]))`. */
  function KeyColumn(data: seq<Row>, key: string): seq<string>
  {
    seq(|data|, i requires 0 <= i < |data| => KeyOf(data[i], key))
  }

  /** Number of rows filed under `v`. */
  function Occurrences(data: seq<Row>, key: string, v: string): nat
  {
    if data == [] then 0
    else Occurrences(data[..|data| - 1], key, v) + (if KeyOf(data[|data| - 1], key) == v then 1 else 0)
  }

  /** The keys some row is filed under. */
  function KeySet(data: seq<Row>, key: string): set<string>
  {
    set i | 0 <= i < |data| :: KeyOf(data[i], key)
  }

  /** The dictionary `countBy(data, key)` returns, defined all at once. */
  function Tally(data: seq<Row>, key: string): map<string, nat>
  {
    map v | v in KeySet(data, key) :: Occurrences(data, key, v)
  }

  /** `counts[v] || 0`. */
  function CountOf(counts: map<string, nat>, v: string): nat
  {
    if v in counts then counts[v] else 0
  }

  lemma {:induction false} OccurrencesAbsent(data: seq<Row>, key: string, v: string)
    requires v !in KeySet(data, key)
    ensures Occurrences(data, key, v) == 0
  {
    if data != [] {
      var n := |data| - 1;
      assert KeySet(data[..n], key) <= KeySet(data, key) by {
        forall w | w in KeySet(data[..n], key) ensures w in KeySet(data, key) {
          var i :| 0 <= i < n && KeyOf(data[..n][i], key) == w;
          assert KeyOf(data[i], key) == w;
        }
      }
      OccurrencesAbsent(data[..n], key, v);
      assert KeyOf(data[n], key) in KeySet(data, key);
    }
  }

  lemma {:induction false} OccurrencesPresent(data: seq<Row>, key: string, i: nat)
    requires i < |data|
    ensures Occurrences(data, key, KeyOf(data[i], key)) >= 1
  {
    var n := |data| - 1;
    if i < n {
      assert data[..n][i] == data[i];
      OccurrencesPresent(data[..n], key, i);
    }
  }

  /**
   * The counts are keyed by exactly the values present in the column, and
   * each key's count is the number of rows holding that value, at least one.
   */
  lemma TallyCounts(data: seq<Row>, key: string)
    ensures forall v :: v in Tally(data, key) <==> exists i :: 0 <= i < |data| && KeyOf(data[i], key) == v
    ensures forall v :: CountOf(Tally(data, key), v) == Occurrences(data, key, v)
    ensures forall v :: v in Tally(data, key) ==> Tally(data, key)[v] >= 1
  {
    forall v ensures CountOf(Tally(data, key), v) == Occurrences(data, key, v) {
      if v !in KeySet(data, key) {
        OccurrencesAbsent(data, key, v);
      }
    }
    forall v | v in Tally(data, key) ensures Tally(data, key)[v] >= 1 {
      var i :| 0 <= i < |data| && KeyOf(data[i], key) == v;
      OccurrencesPresent(data, key, i);
    }
  }

  /** One more row adds one to its key's count, creating the key at 1. */
  lemma TallyStep(data: seq<Row>, key: string, i: nat)
    requires i < |data|
    ensures var k := KeyOf(data[i], key);
      var before := Tally(data[..i], key);
      Tally(data[..i + 1], key) == before[k := CountOf(before, k) + 1]
  {
    var k := KeyOf(data[i], key);
    var p, q := data[..i + 1], data[..i];
    assert p[..|p| - 1] == q;
    var before := Tally(q, key);
    var after := before[k := CountOf(before, k) + 1];
    assert KeySet(p, key) == KeySet(q, key) + {k} by {
      forall w | w in KeySet(p, key) ensures w in KeySet(q, key) + {k} {
        var j :| 0 <= j < |p| && KeyOf(p[j], key) == w;
        if j < i {
          assert q[j] == p[j];
        }
      }
      forall w | w in KeySet(q, key) ensures w in KeySet(p, key) {
        var j :| 0 <= j < |q| && KeyOf(q[j], key) == w;
        assert p[j] == q[j];
      }
      assert p[i] == data[i];
    }
    TallyCounts(q, key);
    forall w | w in KeySet(p, key) ensures Tally(p, key)[w] == after[w] {
    }
  }

  /**
   * `countBy(data, key)`: one pass over the rows, adding one to the count
   * of each row's key.
   */
  method CountBy(data: seq<Row>, key: string) returns (acc: map<string, nat>)
    ensures acc == Tally(data, key)
  {
    acc := map[];
    var i := 0;
    while i < |data|
      invariant 0 <= i <= |data|
      invariant acc == Tally(data[..i], key)
    {
      var k := KeyOf(data[i], key);
      acc := acc[k := (if k in acc then acc[k] else 0) + 1];
      TallyStep(data, key, i);
      i := i + 1;
    }
    assert data[..|data|] == data;
  }

  /** Rows whose key lies in `keys`. */
  function CountIn(data: seq<Row>, key: string, keys: set<string>): nat
  {
    if data == [] then 0
    else CountIn(data[..|data| - 1], key, keys) + (if KeyOf(data[|data| - 1], key) in keys then 1 else 0)
  }

  lemma {:induction false} CountInAdd(data: seq<Row>, key: string, keys: set<string>, v: string)
    requires v !in keys
    ensures CountIn(data, key, keys + {v}) == Occurrences(data, key, v) + CountIn(data, key, keys)
  {
    if data != [] {
      CountInAdd(data[..|data| - 1], key, keys, v);
    }
  }

  lemma {:induction false} CountInAll(data: seq<Row>, key: string, keys: set<string>)
    requires forall i :: 0 <= i < |data| ==> KeyOf(data[i], key) in keys
    ensures CountIn(data, key, keys) == |data|
  {
    if data != [] {
      var n := |data| - 1;
      forall i | 0 <= i < n ensures KeyOf(data[..n][i], key) in keys {
        assert data[..n][i] == data[i];
      }
      CountInAll(data[..n], key, keys);
    }
  }

  function Elements(labels: seq<string>): set<string>
  {
    set l | l in labels
  }

  /** The sum of the counts of the given keys. */
  function SumCounts(counts: map<string, nat>, labels: seq<string>): nat
  {
    if labels == [] then 0 else CountOf(counts, labels[0]) + SumCounts(counts, labels[1..])
  }

  lemma {:induction false} SumCountsIn(data: seq<Row>, key: string, labels: seq<string>)
    requires NoDup(labels)
    ensures SumCounts(Tally(data, key), labels) == CountIn(data, key, Elements(labels))
  {
    if labels == [] {
      assert Elements(labels) == {};
      CountInNone(data, key);
    } else {
      var rest := labels[1..];
      SumCountsIn(data, key, rest);
      TallyCounts(data, key);
      assert labels[0] !in rest;
      CountInAdd(data, key, Elements(rest), labels[0]);
      assert Elements(labels) == Elements(rest) + {labels[0]};
    }
  }

  lemma {:induction false} CountInNone(data: seq<Row>, key: string)
    ensures CountIn(data, key, {}) == 0
  {
    if data != [] {
      CountInNone(data[..|data| - 1], key);
    }
  }

  /**
   * The groups partition the rows: summed over any duplicate-free listing of
   * the keys, the counts add up to the number of rows.
   */
  lemma TallyPartition(data: seq<Row>, key: string, labels: seq<string>)
    requires NoDup(labels)
    requires forall v :: v in labels <==> v in Tally(data, key)
    ensures SumCounts(Tally(data, key), labels) == |data|
  {
    SumCountsIn(data, key, labels);
    TallyCounts(data, key);
    forall i | 0 <= i < |data| ensures KeyOf(data[i], key) in Elements(labels) {
      assert KeyOf(data[i], key) in Tally(data, key);
    }
    CountInAll(data, key, Elements(labels));
  }

  /** `Object.keys(counts).sort()`: the keys in insertion order, sorted. */
  function TrendLabels(data: seq<Row>, key: string): seq<string>
  {
    SortStrings(Distinct(KeyColumn(data, key)))
  }

  /** Each label paired with its count. */
  function Pairs(counts: map<string, nat>, labels: seq<string>): seq<(string, nat)>
  {
    if labels == [] then [] else [(labels[0], CountOf(counts, labels[0]))] + Pairs(counts, labels[1..])
  }

  /** The line chart's series: sorted labels and `sortedKeys.map(k => counts[k])`. */
  function Trend(data: seq<Row>, key: string): seq<(string, nat)>
  {
    Pairs(Tally(data, key), TrendLabels(data, key))
  }

  function SumSeries(series: seq<(string, nat)>): nat
  {
    if series == [] then 0 else series[0].1 + SumSeries(series[1..])
  }

  /** The labels of a series, in order. */
  function LabelsOf(series: seq<(string, nat)>): seq<string>
  {
    seq(|series|, i requires 0 <= i < |series| => series[i].0)
  }

  lemma {:induction false} PairsShape(counts: map<string, nat>, labels: seq<string>)
    ensures LabelsOf(Pairs(counts, labels)) == labels
    ensures forall i :: 0 <= i < |labels| ==> Pairs(counts, labels)[i].1 == CountOf(counts, labels[i])
    ensures SumSeries(Pairs(counts, labels)) == SumCounts(counts, labels)
  {
    if labels != [] {
      PairsShape(counts, labels[1..]);
      var p := Pairs(counts, labels);
      assert p == [(labels[0], CountOf(counts, labels[0]))] + Pairs(counts, labels[1..]);
      assert LabelsOf(p) == [labels[0]] + LabelsOf(Pairs(counts, labels[1..]));
    }
  }

  /** The trend labels list every key once, in strictly ascending order. */
  lemma TrendLabelsAreKeys(data: seq<Row>, key: string)
    ensures var labels := TrendLabels(data, key);
      && StrictlySorted(labels) && NoDup(labels)
      && forall v :: v in labels <==> v in Tally(data, key)
  {
    var column := KeyColumn(data, key);
    var d := Distinct(column);
    var labels := TrendLabels(data, key);
    SortDistinct(d);
    TallyCounts(data, key);
    forall v ensures v in labels <==> v in Tally(data, key) {
      if v in labels {
        assert v in multiset(d);
        assert v in column;
        var i :| 0 <= i < |column| && column[i] == v;
        assert KeyOf(data[i], key) == v;
      }
      if v in Tally(data, key) {
        var i :| 0 <= i < |data| && KeyOf(data[i], key) == v;
        assert column[i] == v;
        assert v in d;
        assert v in multiset(d);
        assert v in multiset(labels);
      }
    }
  }

  /**
   * The trend labels are the distinct keys in strictly ascending order, each
   * paired with the number of rows holding it, and the counts add up to the
   * number of rows.
   */
  lemma TrendShape(data: seq<Row>, key: string)
    ensures var series := Trend(data, key);
      && StrictlySorted(LabelsOf(series))
      && (forall v :: v in LabelsOf(series) <==> v in Tally(data, key))
      && (forall i :: 0 <= i < |series| ==> series[i].1 == Occurrences(data, key, series[i].0) >= 1)
      && SumSeries(series) == |data|
  {
    var labels := TrendLabels(data, key);
    var counts := Tally(data, key);
    var series := Trend(data, key);
    TrendLabelsAreKeys(data, key);
    PairsShape(counts, labels);
    TallyCounts(data, key);
    forall i | 0 <= i < |series| ensures series[i].1 == Occurrences(data, key, series[i].0) >= 1 {
      assert series[i].0 == LabelsOf(series)[i] == labels[i];
      assert labels[i] in counts;
    }
    TallyPartition(data, key, labels);
  }

  /** The summary line. */
  datatype Summary = Summary(total: nat, pending: nat, avgSla: int)

  /** `r["Status"].includes(...)` on the given row throws: the row has no Status. */
  datatype RenderError = MissingStatus(row: nat)

  /** The pending test, `r["Status"].includes("Pending")`. */
  predicate IsPending(r: Row)
  {
    "Status" in r && Contains(r["Status"], "Pending")
  }

  /** The number of rows whose Status contains "Pending", counted one row at a time. */
  function PendingCount(data: seq<Row>): nat
  {
    if data == [] then 0 else (if IsPending(data[0]) then 1 else 0) + PendingCount(data[1..])
  }

  /**
   * `data.filter(r => r["Status"].includes("Pending"))`: the pending rows in
   * order, or the error thrown at the first row without a Status.
   */
  function PendingRows(data: seq<Row>): (r: Result<seq<Row>, RenderError>)
    ensures r.Success? <==> forall i :: 0 <= i < |data| ==> "Status" in data[i]
    ensures r.Failure? ==>
      && r.error.row < |data| && "Status" !in data[r.error.row]
      && forall i :: 0 <= i < r.error.row ==> "Status" in data[i]
    ensures r.Success? ==>
      && IsSubsequence(r.value, data)
      && forall x :: multiset(r.value)[x] == if IsPending(x) then multiset(data)[x] else 0
  {
    if data == [] then Success([])
    else if "Status" !in data[0] then Failure(MissingStatus(0))
    else
      assert data == [data[0]] + data[1..];
      match PendingRows(data[1..])
      case Failure(e) =>
        assert data[e.row + 1] == data[1..][e.row];
        Failure(MissingStatus(e.row + 1))
      case Success(rest) =>
        assert multiset(data) == multiset{data[0]} + multiset(data[1..]);
        if IsPending(data[0]) then
          assert ([data[0]] + rest)[1..] == rest;
          assert multiset([data[0]] + rest) == multiset{data[0]} + multiset(rest);
          Success([data[0]] + rest)
        else
          assert IsSubsequence(rest, data[1..]);
          Success(rest)
  }

  /** The pending rows `PendingRows` keeps are as many as `PendingCount` counts. */
  lemma {:induction false} PendingRowsCount(data: seq<Row>)
    requires PendingRows(data).Success?
    ensures |PendingRows(data).value| == PendingCount(data)
  {
    if data != [] {
      PendingRowsCount(data[1..]);
    }
  }

  /** `parseInt(r["SLA Days"]) || 0`. */
  function SlaDays(r: Row): int
  {
    ParseIntOrZero(Display(Get(r, "SLA Days")))
  }

  /** The SLA of each row. */
  function SlaColumn(data: seq<Row>): seq<int>
  {
    seq(|data|, i requires 0 <= i < |data| => SlaDays(data[i]))
  }

  function Sum(xs: seq<int>): int
  {
    if xs == [] then 0 else xs[0] + Sum(xs[1..])
  }

  /** `data.reduce((acc, r) => acc + (parseInt(r["SLA Days"]) || 0), 0)`. */
  function SlaSum(data: seq<Row>): int
  {
    Sum(SlaColumn(data))
  }

  /** `avg` is the mean `sum / total` rounded to the nearest integer, halves up. */
  predicate IsRoundedMean(avg: int, sum: int, total: nat)
  {
    (2 * avg - 1) * total <= 2 * sum < (2 * avg + 1) * total
  }

  /** `Math.round(sum / total)` in exact integer arithmetic. */
  function RoundHalfUp(sum: int, total: nat): (avg: int)
    requires total > 0
    ensures IsRoundedMean(avg, sum, total)
  {
    var q := (2 * sum + total) / (2 * total);
    assert q * (2 * total) <= 2 * sum + total < q * (2 * total) + 2 * total;
    q
  }

  /** `Math.round(sum / total || 0)`: 0 for no rows, where `0 / 0` is NaN. */
  function AverageSla(data: seq<Row>): (avg: int)
    ensures |data| == 0 ==> avg == 0
    ensures |data| > 0 ==> IsRoundedMean(avg, SlaSum(data), |data|)
  {
    if |data| == 0 then 0 else RoundHalfUp(SlaSum(data), |data|)
  }

  /**
   * `renderSummary(data)`: the row count, the pending count and the average
   * SLA, or the error of the first row without a Status.
   */
  function RenderSummary(data: seq<Row>): (s: Result<Summary, RenderError>)
    ensures s.Success? <==> forall i :: 0 <= i < |data| ==> "Status" in data[i]
    ensures s.Success? ==>
      && s.value.total == |data|
      && s.value.pending == PendingCount(data) <= s.value.total
      && s.value.avgSla == AverageSla(data)
  {
    match PendingRows(data)
    case Failure(e) => Failure(e)
    case Success(pending) =>
      assert |pending| == PendingCount(data) <= |data| by {
        PendingRowsCount(data);
        SubsequenceLength(pending, data);
      }
      Success(Summary(|data|, |pending|, AverageSla(data)))
  }

  lemma MulLtCancel(x: int, y: int, t: int)
    requires t > 0 && x * t < y * t
    ensures x < y
  {
  }

  /** The rounded mean is unique: no other integer lies within one half of `sum / total`. */
  lemma AverageUnique(sum: int, total: nat, a: int)
    requires total > 0
    requires IsRoundedMean(a, sum, total)
    ensures a == RoundHalfUp(sum, total)
  {
    var r := RoundHalfUp(sum, total);
    MulLtCancel(2 * a - 1, 2 * r + 1, total);
    MulLtCancel(2 * r - 1, 2 * a + 1, total);
  }

  lemma {:induction false} SumBounds(xs: seq<int>, lo: int, hi: int)
    requires forall i :: 0 <= i < |xs| ==> lo <= xs[i] <= hi
    ensures lo * |xs| <= Sum(xs) <= hi * |xs|
  {
    if xs != [] {
      var n := |xs| - 1;
      SumBounds(xs[1..], lo, hi);
      assert lo * |xs| == lo + lo * n;
      assert hi * |xs| == hi + hi * n;
    }
  }

  lemma RoundedMeanWithin(a: int, sum: int, n: nat, lo: int, hi: int)
    requires n > 0 && IsRoundedMean(a, sum, n)
    requires lo * n <= sum <= hi * n
    ensures lo <= a <= hi
  {
    MulLtCancel(2 * a - 1, 2 * hi + 1, n);
    MulLtCancel(2 * lo - 1, 2 * a + 1, n);
  }

  /** When every row's SLA lies in `[lo, hi]`, so does the rounded average. */
  lemma AverageWithin(data: seq<Row>, lo: int, hi: int)
    requires |data| > 0
    requires forall i :: 0 <= i < |data| ==> lo <= SlaDays(data[i]) <= hi
    ensures lo <= AverageSla(data) <= hi
  {
    var column := SlaColumn(data);
    forall i | 0 <= i < |column| ensures lo <= column[i] <= hi {
      assert column[i] == SlaDays(data[i]);
    }
    SumBounds(column, lo, hi);
    RoundedMeanWithin(AverageSla(data), SlaSum(data), |data|, lo, hi);
  }

  /** A record without an "SLA Days" cell contributes 0. */
  lemma MissingSlaIsZero(r: Row)
    requires "SLA Days" !in r
    ensures SlaDays(r) == 0
  {
    ParseIntUndefined();
  }

  /**
   * A CSV text that ends with a line break, and whose first column is not
   * Status, makes the summary throw: the blank last line becomes a record
   * without a Status.
   */
  lemma TrailingNewlineBreaksSummary(text: string)
    requires |text| > 0 && text[|text| - 1] == '\n'
    requires HeaderAt(Table(text)[0], 0) != "Status"
    ensures RenderSummary(ParseCsv(text)).Failure?
  {
    TrailingNewlineRecord(text);
    var rows := ParseCsv(text);
    assert "Status" !in rows[|rows| - 1];
  }
}

=== FILE: dashboard.dfy ===
/**
 * The page's state: `rawData`, replaced on every load, and the four filter
 * dropdowns whose options are appended when the data arrives and whose
 * values select the rows every rendering works on.
 */
module Dashboard {
  import opened Wrappers
  import opened JsString
  import opened Ingest
  import opened Filters
  import opened Aggregate

  /** The text an `<option>` gets for each value: `String(v)`. */
  function DisplayAll(opts: seq<Option<string>>): seq<string>
  {
    seq(|opts|, i requires 0 <= i < |opts| => Display(opts[i]))
  }

  /** A filter `<select>`: its option values in document order and its current value. */
  class Dropdown {
    var values: seq<string>
    var selected: string

    constructor ()
      ensures values == [] && selected == ""
    {
      values := [];
      selected := "";
    }

    /**
     * `populateDropdown`: one option appended per value, in the given order;
     * the current value is untouched.
     */
    method Populate(opts: seq<Option<string>>)
      modifies this
      ensures values == old(values) + DisplayAll(opts)
      ensures selected == old(selected)
    {
      var i := 0;
      while i < |opts|
        invariant 0 <= i <= |opts|
        invariant values == old(values) + DisplayAll(opts[..i])
        invariant selected == old(selected)
      {
        values := values + [Display(opts[i])];
        i := i + 1;
        assert DisplayAll(opts[..i]) == DisplayAll(opts[..i - 1]) + [Display(opts[i - 1])];
      }
      assert opts[..|opts|] == opts;
    }
  }

  /** Everything one `renderAll` shows. */
  datatype View = View(
    rows: seq<Row>,                  // the table
    summary: Summary,                // the summary line
    byMandal: map<string, nat>,      // the bar chart
    trend: seq<(string, nat)>,       // the line chart, by "Raised Date"
    byStatus: map<string, nat>)      // the pie chart

  /**
   * `renderAll` for the given data and dropdown values. A row without a
   * Status makes the summary throw, and then nothing after it is drawn.
   */
  function Render(data: seq<Row>, sel: Selection): Result<View, RenderError>
  {
    var rows := FilterRows(data, sel);
    match RenderSummary(rows)
    case Failure(e) => Failure(e)
    case Success(s) =>
      Success(View(rows, s, Tally(rows, "Mandal"), Trend(rows, "Raised Date"), Tally(rows, "Status")))
  }

  /** A sample export that ends with a line break, as many CSV writers leave it. */
  const SampleCsv := "District,Mandal,Status" + "\n" + "A,M1,Pending" + "\n" + "A,M1,Approved" + "\n" + "B,M2,Pending" + "\n"

  lemma FourLinesThenBreak(l0: string, l1: string, l2: string, l3: string)
    requires '\n' !in l0 && '\n' !in l1 && '\n' !in l2 && '\n' !in l3
    ensures Split(l0 + "\n" + l1 + "\n" + l2 + "\n" + l3 + "\n", '\n') == [l0, l1, l2, l3, ""]
  {
    var lines := [l0, l1, l2, l3, ""];
    assert Join(lines[3..], '\n') == l3 + "\n" + "";
    assert Join(lines[2..], '\n') == l2 + "\n" + Join(lines[3..], '\n');
    assert Join(lines[1..], '\n') == l1 + "\n" + Join(lines[2..], '\n');
    assert Join(lines, '\n') == l0 + "\n" + Join(lines[1..], '\n');
    assert Join(lines, '\n') == l0 + "\n" + l1 + "\n" + l2 + "\n" + l3 + "\n";
    SplitJoin(lines, '\n');
  }

  /** The first header is the text of the first line up to its first comma. */
  lemma FirstHeader(text: string, a: string, b: string, rest: seq<string>)
    requires ',' !in a
    requires Split(text, '\n') == [a + [','] + b] + rest
    ensures HeaderAt(Table(text)[0], 0) == a
  {
    SplitAtSeparator(a, b, ',');
    SplitWithoutSeparator(a, ',');
    assert Table(text)[0] == Split(a + [','] + b, ',');
  }

  /**
   * Three data lines under a header line, each ended by a line break, give
   * four records: the last holds only the first header, as "", so rendering
   * with no filter throws unless that header is "Status".
   */
  lemma FourLinesFourRecords(l0: string, l1: string, l2: string, l3: string, a: string, b: string)
    requires '\n' !in l0 && '\n' !in l1 && '\n' !in l2 && '\n' !in l3
    requires l0 == a + [','] + b && ',' !in a && a != "Status"
    ensures var rows := ParseCsv(l0 + "\n" + l1 + "\n" + l2 + "\n" + l3 + "\n");
      && |rows| == 4
      && rows[3] == map[a := ""]
      && Render(rows, NoSelection).Failure?
  {
    var text := l0 + "\n" + l1 + "\n" + l2 + "\n" + l3 + "\n";
    FourLinesThenBreak(l0, l1, l2, l3);
    FirstHeader(text, a, b, [l1, l2, l3, ""]);
    BlankLastLine(text);
    var rows := ParseCsv(text);
    FilterNoSelection(rows);
    assert "Status" !in rows[3];
  }

  /**
   * The sample's three data lines give four records, the last holding only
   * "District", so rendering with no filter throws instead of reporting 3
   * rows of which 2 are pending.
   */
  lemma TrailingNewlineSample()
    ensures var rows := ParseCsv(SampleCsv);
      && |rows| == 4
      && rows[3] == map["District" := ""]
      && Render(rows, NoSelection).Failure?
  {
    var a, b := "District", "Mandal,Status";
    assert a + [','] + b == "District,Mandal,Status";
    FourLinesFourRecords("District,Mandal,Status", "A,M1,Pending", "A,M1,Approved", "B,M2,Pending", a, b);
  }

  class App {
    var rawData: seq<Row>
    const districtFilter: Dropdown
    const mandalFilter: Dropdown
    const secretariatFilter: Dropdown
    const statusFilter: Dropdown

    ghost predicate Valid()
      reads this
    {
      && districtFilter != mandalFilter && districtFilter != secretariatFilter
      && districtFilter != statusFilter && mandalFilter != secretariatFilter
      && mandalFilter != statusFilter && secretariatFilter != statusFilter
    }

    /** The page before the first load: no data, empty dropdowns, nothing selected. */
    constructor ()
      ensures Valid() && rawData == []
      ensures fresh(districtFilter) && fresh(mandalFilter) && fresh(secretariatFilter) && fresh(statusFilter)
      ensures districtFilter.values == mandalFilter.values == secretariatFilter.values == statusFilter.values == []
      ensures CurrentSelection() == NoSelection
    {
      rawData := [];
      districtFilter := new Dropdown();
      mandalFilter := new Dropdown();
      secretariatFilter := new Dropdown();
      statusFilter := new Dropdown();
    }

    /** The four dropdown values, as `getFilteredData` reads them. */
    function CurrentSelection(): Selection
      reads this, districtFilter, mandalFilter, secretariatFilter, statusFilter
    {
      Selection(districtFilter.selected, mandalFilter.selected, secretariatFilter.selected, statusFilter.selected)
    }

    /** `populateFilters`: each dropdown gets the sorted distinct values of its column appended. */
    method PopulateFilters()
      requires Valid()
      modifies districtFilter, mandalFilter, secretariatFilter, statusFilter
      ensures Valid()
      ensures districtFilter.values == old(districtFilter.values) + DisplayAll(Options(rawData, District))
      ensures mandalFilter.values == old(mandalFilter.values) + DisplayAll(Options(rawData, Mandal))
      ensures secretariatFilter.values == old(secretariatFilter.values) + DisplayAll(Options(rawData, Secretariat))
      ensures statusFilter.values == old(statusFilter.values) + DisplayAll(Options(rawData, Status))
      ensures CurrentSelection() == old(CurrentSelection())
    {
      var district, mandal := Options(rawData, District), Options(rawData, Mandal);
      var secretariat, status := Options(rawData, Secretariat), Options(rawData, Status);
      districtFilter.Populate(district);
      mandalFilter.Populate(mandal);
      secretariatFilter.Populate(secretariat);
      statusFilter.Populate(status);
    }

    /** `getFilteredData`: the rows the four dropdown values admit. */
    method GetFilteredData() returns (rows: seq<Row>)
      ensures rows == FilterRows(rawData, CurrentSelection())
    {
      rows := FilterRows(rawData, CurrentSelection());
    }

    /**
     * `renderAll`: filter, then the summary, and only when it succeeds the
     * three charts' counts (each built by `countBy`) and the table rows.
     */
    method RenderAll() returns (view: Result<View, RenderError>)
      ensures view == Render(rawData, CurrentSelection())
    {
      var rows := GetFilteredData();
      var summary := RenderSummary(rows);
      if summary.Failure? {
        return Failure(summary.error);
      }
      var byMandal := CountBy(rows, "Mandal");
      var byDate := CountBy(rows, "Raised Date");
      var series := Pairs(byDate, TrendLabels(rows, "Raised Date"));
      var byStatus := CountBy(rows, "Status");
      view := Success(View(rows, summary.value, byMandal, series, byStatus));
    }

    /**
     * `fetchData` once the text has arrived: `rawData` replaced by the parsed
     * records, the dropdowns populated, everything rendered.
     */
    method FetchData(text: string) returns (view: Result<View, RenderError>)
      requires Valid()
      modifies this, districtFilter, mandalFilter, secretariatFilter, statusFilter
      ensures Valid()
      ensures rawData == ParseCsv(text)
      ensures districtFilter.values == old(districtFilter.values) + DisplayAll(Options(rawData, District))
      ensures mandalFilter.values == old(mandalFilter.values) + DisplayAll(Options(rawData, Mandal))
      ensures secretariatFilter.values == old(secretariatFilter.values) + DisplayAll(Options(rawData, Secretariat))
      ensures statusFilter.values == old(statusFilter.values) + DisplayAll(Options(rawData, Status))
      ensures CurrentSelection() == old(CurrentSelection())
      ensures view == Render(rawData, CurrentSelection())
    {
      rawData := ParseCsv(text);
      PopulateFilters();
      view := RenderAll();
    }

    /**
     * `resetFilters`: all four dropdowns back to "", then render; every row
     * is shown again.
     */
    method ResetFilters() returns (view: Result<View, RenderError>)
      requires Valid()
      modifies districtFilter, mandalFilter, secretariatFilter, statusFilter
      ensures Valid()
      ensures CurrentSelection() == NoSelection
      ensures districtFilter.values == old(districtFilter.values) && mandalFilter.values == old(mandalFilter.values)
      ensures secretariatFilter.values == old(secretariatFilter.values) && statusFilter.values == old(statusFilter.values)
      ensures view == Render(rawData, NoSelection)
      ensures view.Success? ==> view.value.rows == rawData
    {
      districtFilter.selected := "";
      mandalFilter.selected := "";
      secretariatFilter.selected := "";
      statusFilter.selected := "";
      view := RenderAll();
      FilterNoSelection(rawData);
    }
  }
}

=== FILE: filters.dfy ===
/**
 * The four filter dropdowns: the option list each one offers
 * (`populateFilters` / `populateDropdown`) and the rows the current
 * selection keeps (`getFilteredData`).
 */
module Filters {
  import opened Wrappers
  import opened JsOrder
  import opened Ingest

  /** The four filtered columns. */
  datatype Column = District | Mandal | Secretariat | Status

  /** The column's header name in the sheet. */
  function Name(c: Column): string
  {
    match c
    case District => "District"
    case Mandal => "Mandal"
    case Secretariat => "Secretariat"
    case Status => "Status"
  }

  /** The values of the four dropdowns; "" is the "no restriction" choice. */
  datatype Selection = Selection(district: string, mandal: string, secretariat: string, status: string)
  {
    function Of(c: Column): string
    {
      match c
      case District => district
      case Mandal => mandal
      case Secretariat => secretariat
      case Status => status
    }
  }

  const NoSelection := Selection("", "", "", "")

  /** A selection that restricts one column only. */
  function Only(c: Column, v: string): Selection
  {
    match c
    case District => Selection(v, "", "", "")
    case Mandal => Selection("", v, "", "")
    case Secretariat => Selection("", "", v, "")
    case Status => Selection("", "", "", v)
  }

  /** `!want || r[column] === want`. */
  predicate Admits(want: string, r: Row, c: Column)
  {
    want == "" || Get(r, Name(c)) == Some(want)
  }

  /** The filter callback: all four constraints at once. */
  predicate Matches(r: Row, sel: Selection)
  {
    Admits(sel.district, r, District) && Admits(sel.mandal, r, Mandal)
    && Admits(sel.secretariat, r, Secretariat) && Admits(sel.status, r, Status)
  }

  /** `a` is `b` with some elements left out, in the same order. */
  predicate IsSubsequence<T(==)>(a: seq<T>, b: seq<T>)
  {
    if a == [] then true
    else if b == [] then false
    else (a[0] == b[0] && IsSubsequence(a[1..], b[1..])) || IsSubsequence(a, b[1..])
  }

  lemma {:induction false} SubsequenceLength<T>(a: seq<T>, b: seq<T>)
    requires IsSubsequence(a, b)
    ensures |a| <= |b|
  {
    if a != [] {
      if a[0] == b[0] && IsSubsequence(a[1..], b[1..]) {
        SubsequenceLength(a[1..], b[1..]);
      } else {
        SubsequenceLength(a, b[1..]);
      }
    }
  }

  /**
   * `rawData.filter(...)`: the rows the selection admits, in their original
   * order, each kept row as often as it occurs in the data.
   */
  function FilterRows(data: seq<Row>, sel: Selection): (kept: seq<Row>)
    ensures IsSubsequence(kept, data)
    ensures forall r :: r in kept ==> Matches(r, sel)
    ensures forall r :: multiset(kept)[r] == if Matches(r, sel) then multiset(data)[r] else 0
  {
    if data == [] then []
    else
      assert data == [data[0]] + data[1..];
      var rest := FilterRows(data[1..], sel);
      if Matches(data[0], sel) then
        assert ([data[0]] + rest)[1..] == rest;
        [data[0]] + rest
      else rest
  }

  /** With all four dropdowns cleared, every row is kept. */
  lemma {:induction false} FilterNoSelection(data: seq<Row>)
    ensures FilterRows(data, NoSelection) == data
  {
    if data != [] {
      FilterNoSelection(data[1..]);
      assert [data[0]] + data[1..] == data;
    }
  }

  /** `fine` restricts at least every column `coarse` restricts, to the same value. */
  predicate Narrows(fine: Selection, coarse: Selection)
  {
    forall c: Column :: coarse.Of(c) == "" || fine.Of(c) == coarse.Of(c)
  }

  lemma NarrowsMatches(r: Row, fine: Selection, coarse: Selection)
    requires Narrows(fine, coarse) && Matches(r, fine)
    ensures Matches(r, coarse)
  {
    assert coarse.Of(District) == "" || fine.Of(District) == coarse.Of(District);
    assert coarse.Of(Mandal) == "" || fine.Of(Mandal) == coarse.Of(Mandal);
    assert coarse.Of(Secretariat) == "" || fine.Of(Secretariat) == coarse.Of(Secretariat);
    assert coarse.Of(Status) == "" || fine.Of(Status) == coarse.Of(Status);
  }

  /**
   * Setting a further dropdown (or keeping every dropdown already set) can
   * only drop rows: the narrower result is a subsequence of the wider one.
   */
  lemma {:induction false} FilterNarrowing(data: seq<Row>, fine: Selection, coarse: Selection)
    requires Narrows(fine, coarse)
    ensures IsSubsequence(FilterRows(data, fine), FilterRows(data, coarse))
    ensures |FilterRows(data, fine)| <= |FilterRows(data, coarse)|
  {
    var a, b := FilterRows(data, fine), FilterRows(data, coarse);
    if data != [] {
      FilterNarrowing(data[1..], fine, coarse);
      var a', b' := FilterRows(data[1..], fine), FilterRows(data[1..], coarse);
      if Matches(data[0], fine) {
        NarrowsMatches(data[0], fine, coarse);
        assert a == [data[0]] + a' && b == [data[0]] + b';
        assert a[1..] == a' && b[1..] == b';
      } else if Matches(data[0], coarse) {
        assert a == a' && b == [data[0]] + b';
        assert b[1..] == b';
        SubsequenceInLonger(a', b', data[0]);
      }
    }
    SubsequenceLength(a, b);
  }

  lemma SubsequenceInLonger<T>(a: seq<T>, b: seq<T>, x: T)
    requires IsSubsequence(a, b)
    ensures IsSubsequence(a, [x] + b)
  {
    assert ([x] + b)[1..] == b;
  }

  /** Filtering the filtered rows again with the same selection changes nothing. */
  lemma {:induction false} FilterIdempotent(data: seq<Row>, sel: Selection)
    ensures FilterRows(FilterRows(data, sel), sel) == FilterRows(data, sel)
  {
    if data != [] {
      FilterIdempotent(data[1..], sel);
      var rest := FilterRows(data[1..], sel);
      if Matches(data[0], sel) {
        assert ([data[0]] + rest)[1..] == rest;
      }
    }
  }

  /** `rawData.map(r => r[column])`. */
  function ColumnValues(data: seq<Row>, c: Column): (vals: seq<Option<string>>)
    ensures |vals| == |data|
  {
    seq(|data|, i requires 0 <= i < |data| => Get(data[i], Name(c)))
  }

  /**
   * `[...new Set(rawData.map(r => r[column]))].sort()`.
   */
  function Options(data: seq<Row>, c: Column): seq<Option<string>>
  {
    JsSort(Distinct(ColumnValues(data, c)))
  }

  /**
   * The option list holds every value of the column exactly once, defined
   * values ascending, `undefined` (a record without the column) last.
   */
  lemma OptionsShape(data: seq<Row>, c: Column)
    ensures var opts := Options(data, c);
      && AscendingUndefinedLast(opts) && NoDup(opts)
      && forall v :: v in opts <==> exists i :: 0 <= i < |data| && Get(data[i], Name(c)) == v
  {
    var vals := ColumnValues(data, c);
    JsSortDistinct(Distinct(vals));
    forall v | v in vals ensures exists i :: 0 <= i < |data| && Get(data[i], Name(c)) == v {
      var i :| 0 <= i < |vals| && vals[i] == v;
    }
    forall v | (exists i :: 0 <= i < |data| && Get(data[i], Name(c)) == v) ensures v in vals {
      var i :| 0 <= i < |data| && Get(data[i], Name(c)) == v;
      assert vals[i] == v;
    }
  }

  /**
   * Every option for a defined, non-empty value, picked with the other three
   * cleared, shows at least one row.
   */
  lemma OptionSelectsRows(data: seq<Row>, c: Column, s: string)
    requires Some(s) in Options(data, c) && s != ""
    ensures |FilterRows(data, Only(c, s))| > 0
  {
    OptionsShape(data, c);
    var i :| 0 <= i < |data| && Get(data[i], Name(c)) == Some(s);
    assert Matches(data[i], Only(c, s));
    assert data[i] in multiset(data);
  }

  /** A row kept by a one-column selection holds the selected text in that column. */
  lemma OnlyKeeps(data: seq<Row>, c: Column, v: string, r: Row)
    requires v != "" && r in FilterRows(data, Only(c, v))
    ensures Get(r, Name(c)) == Some(v)
  {
    assert Matches(r, Only(c, v));
  }

  /** A one-column selection for a text no cell of that column holds keeps nothing. */
  lemma OnlyKeepsNothing(data: seq<Row>, c: Column, v: string)
    requires v != ""
    requires forall i :: 0 <= i < |data| ==> Get(data[i], Name(c)) != Some(v)
    ensures FilterRows(data, Only(c, v)) == []
  {
    var kept := FilterRows(data, Only(c, v));
    forall r ensures multiset(kept)[r] == 0 {
      if Matches(r, Only(c, v)) {
        assert forall i :: 0 <= i < |data| ==> data[i] != r;
        assert r !in multiset(data);
      }
    }
    assert multiset(kept) == multiset{};
  }

  /**
   * The "undefined" option, offered when some record lacks the column, is
   * compared with `===` as the text "undefined": it never keeps the records
   * that lack the column, and keeps nothing unless some cell holds that text.
   */
  lemma UndefinedOptionSelects(data: seq<Row>, c: Column)
    requires None in Options(data, c)
    ensures exists i :: 0 <= i < |data| && Name(c) !in data[i]
    ensures forall r :: r in FilterRows(data, Only(c, "undefined")) ==> Get(r, Name(c)) == Some("undefined")
    ensures (forall i :: 0 <= i < |data| ==> Get(data[i], Name(c)) != Some("undefined")) ==>
      FilterRows(data, Only(c, "undefined")) == []
  {
    OptionsShape(data, c);
    forall r | r in FilterRows(data, Only(c, "undefined")) ensures Get(r, Name(c)) == Some("undefined") {
      OnlyKeeps(data, c, "undefined", r);
    }
    if forall i :: 0 <= i < |data| ==> Get(data[i], Name(c)) != Some("undefined") {
      OnlyKeepsNothing(data, c, "undefined");
    }
  }
}

=== FILE: ingest.dfy ===
/**
 * Turning the fetched CSV text into records (`fetchData`): split into lines
 * on "\n", each line into cells on ",", no quoting; line 0 is the header.
 */
module Ingest {
  import opened Wrappers
  import opened JsString
  import JsOrder

  /** A record: column name to cell text, as a plain JavaScript object. */
  type Row = map<string, string>

  /** `r[k]`: the cell, or `undefined` when the record has no such column. */
  function Get(r: Row, k: string): Option<string>
  {
    if k in r then Some(r[k]) else None
  }

  /** `String(v)` on a cell value: `undefined` becomes "undefined". */
  function Display(v: Option<string>): string
  {
    match v
    case Some(s) => s
    case None => "undefined"
  }

  /**
   * `headers[i]` used as a property key: past the end of the header line it
   * is `undefined`, whose key is "undefined".
   */
  function HeaderAt(headers: seq<string>, i: nat): string
  {
    if i < |headers| then headers[i] else "undefined"
  }

  /**
   * `Object.fromEntries(cells.map((val, i) => [headers[i], val]))`: the
   * entries are added in order, so a later repeated key overwrites an
   * earlier one.
   */
  function Record(headers: seq<string>, cells: seq<string>): Row
  {
    if cells == [] then map[]
    else Record(headers, cells[..|cells| - 1])[HeaderAt(headers, |cells| - 1) := cells[|cells| - 1]]
  }

  /** The lines of the text and the cells of each line. */
  function Table(text: string): (rows: seq<seq<string>>)
  {
    var lines := Split(text, '\n');
    seq(|lines|, i requires 0 <= i < |lines| => Split(lines[i], ','))
  }

  /**
   * `rawData` after a load: one record per line after the header line, in
   * line order, so one record for every line break in the text.
   */
  function ParseCsv(text: string): (rows: seq<Row>)
    ensures |rows| == CountChar(text, '\n')
  {
    var table := Table(text);
    seq(|table| - 1, j requires 0 <= j < |table| - 1 => Record(table[0], table[j + 1]))
  }

  /** A record has exactly the keys of the header positions its line has cells for. */
  lemma {:induction false} RecordKeys(headers: seq<string>, cells: seq<string>, k: string)
    ensures k in Record(headers, cells) <==> exists i :: 0 <= i < |cells| && HeaderAt(headers, i) == k
  {
    if cells != [] {
      var n := |cells| - 1;
      RecordKeys(headers, cells[..n], k);
      if exists i :: 0 <= i < |cells| && HeaderAt(headers, i) == k {
        var i :| 0 <= i < |cells| && HeaderAt(headers, i) == k;
        if i < n {
          assert cells[..n][i] == cells[i];
        }
      }
      if exists i :: 0 <= i < n && HeaderAt(headers, i) == k {
        var i :| 0 <= i < n && HeaderAt(headers, i) == k;
        assert 0 <= i < |cells|;
      }
    }
  }

  /**
   * Field `headers[i]` of a record holds the line's i-th cell, unless a later
   * cell of the same line is filed under the same key.
   */
  lemma {:induction false} RecordField(headers: seq<string>, cells: seq<string>, i: nat)
    requires i < |cells|
    requires forall j :: i < j < |cells| ==> HeaderAt(headers, j) != HeaderAt(headers, i)
    ensures HeaderAt(headers, i) in Record(headers, cells)
    ensures Record(headers, cells)[HeaderAt(headers, i)] == cells[i]
  {
    var n := |cells| - 1;
    if i < n {
      forall j | i < j < n ensures HeaderAt(headers, j) != HeaderAt(headers, i) {
        assert cells[..n][j] == cells[j];
      }
      RecordField(headers, cells[..n], i);
    }
  }

  /**
   * A text built from a header line and data lines of the same width, none
   * of whose cells holds a comma or a line break and whose header names are
   * distinct, parses back into one record per data line, mapping each header
   * to the cell under it.
   */
  lemma ParseCsvRoundTrip(headers: seq<string>, lines: seq<seq<string>>)
    requires |headers| > 0 && JsOrder.NoDup(headers)
    requires Plain(headers)
    requires forall j :: 0 <= j < |lines| ==> |lines[j]| == |headers| && Plain(lines[j])
    ensures var rows := ParseCsv(Join(JoinCells([headers] + lines), '\n'));
      && |rows| == |lines|
      && forall j, i :: 0 <= j < |lines| && 0 <= i < |headers| ==>
           headers[i] in rows[j] && rows[j][headers[i]] == lines[j][i]
  {
    var all := [headers] + lines;
    var text := Join(JoinCells(all), '\n');
    TableOfJoined(all);
    var rows := ParseCsv(text);
    forall j, i | 0 <= j < |lines| && 0 <= i < |headers|
      ensures headers[i] in rows[j] && rows[j][headers[i]] == lines[j][i]
    {
      assert rows[j] == Record(headers, lines[j]) by {
        assert Table(text)[j + 1] == all[j + 1] == lines[j];
      }
      RecordField(headers, lines[j], i);
    }
  }

  /** Joining plain lines into a text and splitting it again gives back every cell. */
  lemma TableOfJoined(all: seq<seq<string>>)
    requires |all| > 0
    requires forall k :: 0 <= k < |all| ==> Plain(all[k])
    ensures Table(Join(JoinCells(all), '\n')) == all
  {
    var joined := JoinCells(all);
    forall k | 0 <= k < |joined| ensures '\n' !in joined[k] && Split(joined[k], ',') == all[k] {
      JoinPlain(all[k]);
    }
    SplitJoin(joined, '\n');
  }

  /** Each line's cells joined with commas. */
  function JoinCells(lines: seq<seq<string>>): seq<string>
  {
    seq(|lines|, k requires 0 <= k < |lines| => Join(lines[k], ','))
  }

  /** No cell holds a comma or a line break, and the line has at least one cell. */
  predicate Plain(cells: seq<string>)
  {
    |cells| > 0 && forall i :: 0 <= i < |cells| ==> ',' !in cells[i] && '\n' !in cells[i]
  }

  /** Joining plain cells gives a line without line breaks that splits back into them. */
  lemma {:induction false} JoinPlain(cells: seq<string>)
    requires Plain(cells)
    ensures '\n' !in Join(cells, ',')
    ensures Split(Join(cells, ','), ',') == cells
  {
    SplitJoin(cells, ',');
    if |cells| > 1 {
      JoinPlain(cells[1..]);
    }
  }

  /** A last line that is empty becomes a record holding only the first header, as "". */
  lemma BlankLastLine(text: string)
    requires var lines := Split(text, '\n'); |lines| >= 2 && lines[|lines| - 1] == []
    ensures var rows := ParseCsv(text);
      && |rows| == |Split(text, '\n')| - 1
      && rows[|rows| - 1] == map[HeaderAt(Table(text)[0], 0) := ""]
  {
    var rows := ParseCsv(text);
    var table := Table(text);
    var blank: seq<string> := [[]];
    assert table[|table| - 1] == Split([], ',') == blank;
    assert rows[|rows| - 1] == Record(table[0], blank);
    assert blank[..0] == [];
  }

  /**
   * A text ending in a line break (a trailing newline) yields as its last
   * record a one-field record holding only the first header, set to "".
   */
  lemma TrailingNewlineRecord(text: string)
    requires |text| > 0 && text[|text| - 1] == '\n'
    ensures var rows := ParseCsv(text);
      && |rows| > 0
      && rows[|rows| - 1] == map[HeaderAt(Table(text)[0], 0) := ""]
  {
    SplitTrailingSeparator(text, '\n');
    BlankLastLine(text);
  }
}

=== FILE: js_order.dfy ===
/**
 * JavaScript's default string order, `Array.prototype.sort` without a
 * comparator, and the distinct-values step of `new Set(...)`.
 */
module JsOrder {
  import opened Wrappers

  /**
   * `a < b` on JavaScript strings: compare character by character; a proper
   * prefix comes first.
   */
  predicate Lt(a: string, b: string)
  {
    if |a| == 0 then |b| > 0
    else if |b| == 0 then false
    else if a[0] != b[0] then a[0] < b[0]
    else Lt(a[1..], b[1..])
  }

  predicate Le(a: string, b: string)
  {
    a == b || Lt(a, b)
  }

  lemma {:induction false} LtIrreflexive(a: string)
    ensures !Lt(a, a)
  {
    if |a| > 0 {
      LtIrreflexive(a[1..]);
    }
  }

  lemma {:induction false} LtTransitive(a: string, b: string, c: string)
    requires Lt(a, b) && Lt(b, c)
    ensures Lt(a, c)
  {
    if |a| > 0 && a[0] == b[0] && b[0] == c[0] {
      LtTransitive(a[1..], b[1..], c[1..]);
    }
  }

  /** The order is total: any two strings are equal or ordered one way. */
  lemma {:induction false} LtTrichotomy(a: string, b: string)
    ensures Lt(a, b) || a == b || Lt(b, a)
  {
    if |a| > 0 && |b| > 0 && a[0] == b[0] {
      LtTrichotomy(a[1..], b[1..]);
      if a[1..] == b[1..] {
        assert a == [a[0]] + a[1..] && b == [b[0]] + b[1..];
      }
    }
  }

  lemma LtAsymmetric(a: string, b: string)
    requires Lt(a, b)
    ensures !Lt(b, a)
  {
    if Lt(b, a) {
      LtTransitive(a, b, a);
      LtIrreflexive(a);
    }
  }

  lemma LeTransitive(a: string, b: string, c: string)
    requires Le(a, b) && Le(b, c)
    ensures Le(a, c)
  {
    if Lt(a, b) && Lt(b, c) {
      LtTransitive(a, b, c);
    }
  }

  predicate Sorted(s: seq<string>)
  {
    forall i, j :: 0 <= i < j < |s| ==> Le(s[i], s[j])
  }

  predicate StrictlySorted(s: seq<string>)
  {
    forall i, j :: 0 <= i < j < |s| ==> Lt(s[i], s[j])
  }

  predicate NoDup<T(==)>(s: seq<T>)
  {
    forall i, j :: 0 <= i < j < |s| ==> s[i] != s[j]
  }

  /** Insert `x` into sorted `s` before the first element not below it. */
  function Insert(x: string, s: seq<string>): (r: seq<string>)
    ensures multiset(r) == multiset(s) + multiset{x}
  {
    if s == [] || Le(x, s[0]) then [x] + s
    else
      assert s == [s[0]] + s[1..];
      [s[0]] + Insert(x, s[1..])
  }

  /** The engine's `sort()` on strings, specified as an insertion sort. */
  function SortStrings(xs: seq<string>): (r: seq<string>)
    ensures multiset(r) == multiset(xs)
  {
    if xs == [] then []
    else
      assert xs == [xs[0]] + xs[1..];
      Insert(xs[0], SortStrings(xs[1..]))
  }

  /** Every element of `Insert(x, s)` is `x` or an element of `s`. */
  lemma InsertMember(x: string, s: seq<string>, j: nat)
    requires j < |Insert(x, s)|
    ensures Insert(x, s)[j] == x || Insert(x, s)[j] in s
  {
    assert Insert(x, s)[j] in multiset(Insert(x, s));
  }

  /** A lower bound of a sorted sequence can be put in front of it. */
  lemma SortedCons(y: string, t: seq<string>)
    requires Sorted(t)
    requires forall j :: 0 <= j < |t| ==> Le(y, t[j])
    ensures Sorted([y] + t)
  {
    var r := [y] + t;
    forall i, j | 0 <= i < j < |r| ensures Le(r[i], r[j]) {
      if i > 0 {
        assert r[i] == t[i - 1] && r[j] == t[j - 1];
      }
    }
  }

  lemma {:induction false} InsertSorted(x: string, s: seq<string>)
    requires Sorted(s)
    ensures Sorted(Insert(x, s))
  {
    if s == [] || Le(x, s[0]) {
      forall j | 0 <= j < |s| ensures Le(x, s[j]) {
        if j > 0 {
          LeTransitive(x, s[0], s[j]);
        }
      }
      SortedCons(x, s);
    } else {
      InsertSorted(x, s[1..]);
      var t := Insert(x, s[1..]);
      LtTrichotomy(x, s[0]);
      forall j | 0 <= j < |t| ensures Le(s[0], t[j]) {
        InsertMember(x, s[1..], j);
      }
      SortedCons(s[0], t);
    }
  }

  /** `sort()` yields an ascending permutation of its input. */
  lemma {:induction false} SortStringsSorted(xs: seq<string>)
    ensures Sorted(SortStrings(xs))
  {
    if xs != [] {
      SortStringsSorted(xs[1..]);
      InsertSorted(xs[0], SortStrings(xs[1..]));
    }
  }

  /** Two equal elements at distinct positions make a multiplicity of at least two. */
  lemma RepeatCounted<T>(s: seq<T>, i: nat, j: nat)
    requires i < j < |s| && s[i] == s[j]
    ensures multiset(s)[s[i]] >= 2
  {
    assert s == s[..j] + [s[j]] + s[j + 1..];
    assert s[i] in multiset(s[..j]);
  }

  /** A sequence without duplicates has multiplicities of at most one. */
  lemma {:induction false} NoDupMultiplicity<T>(s: seq<T>, x: T)
    requires NoDup(s)
    ensures multiset(s)[x] <= 1
  {
    if s != [] {
      assert s == [s[0]] + s[1..];
      NoDupMultiplicity(s[1..], x);
      if s[0] == x {
        assert x !in s[1..];
      }
    }
  }

  /** Sorting distinct strings gives a strictly ascending sequence. */
  lemma SortDistinct(xs: seq<string>)
    requires NoDup(xs)
    ensures StrictlySorted(SortStrings(xs)) && NoDup(SortStrings(xs))
  {
    var r := SortStrings(xs);
    SortStringsSorted(xs);
    forall i, j | 0 <= i < j < |r| ensures r[i] != r[j] {
      if r[i] == r[j] {
        RepeatCounted(r, i, j);
        NoDupMultiplicity(xs, r[i]);
      }
    }
  }

  /** `[...new Set(xs)]`: the distinct elements in order of first occurrence. */
  function Distinct<T(==,!new)>(xs: seq<T>): (r: seq<T>)
    ensures NoDup(r)
    ensures forall x :: x in r <==> x in xs
  {
    if xs == [] then []
    else
      var d := Distinct(xs[..|xs| - 1]);
      assert xs == xs[..|xs| - 1] + [xs[|xs| - 1]];
      if xs[|xs| - 1] in d then d else d + [xs[|xs| - 1]]
  }

  /** The defined (non-`undefined`) elements, in order. */
  function Defined(xs: seq<Option<string>>): (r: seq<string>)
    ensures forall s :: s in r <==> Some(s) in xs
  {
    if xs == [] then []
    else
      assert xs == [xs[0]] + xs[1..];
      (if xs[0].Some? then [xs[0].value] else []) + Defined(xs[1..])
  }

  /** One `undefined` for each one in `xs`. */
  function Undefineds(xs: seq<Option<string>>): (r: seq<Option<string>>)
    ensures forall i :: 0 <= i < |r| ==> r[i] == None
    ensures |r| > 0 <==> None in xs
  {
    if xs == [] then []
    else
      assert xs == [xs[0]] + xs[1..];
      (if xs[0] == None then [None] else []) + Undefineds(xs[1..])
  }

  function Somes(s: seq<string>): seq<Option<string>>
  {
    seq(|s|, i requires 0 <= i < |s| => Some(s[i]))
  }

  /**
   * `xs.sort()` on cell values: the defined values in string order, then
   * every `undefined` at the end.
   */
  function JsSort(xs: seq<Option<string>>): seq<Option<string>>
  {
    Somes(SortStrings(Defined(xs))) + Undefineds(xs)
  }

  /**
   * The shape of a sorted option list: only the last element may be
   * `undefined`, and the defined values strictly ascend.
   */
  predicate AscendingUndefinedLast(s: seq<Option<string>>)
  {
    forall i, j :: 0 <= i < j < |s| ==> s[i].Some? && (s[j].Some? ==> Lt(s[i].value, s[j].value))
  }

  lemma {:induction false} DefinedNoDup(xs: seq<Option<string>>)
    requires NoDup(xs)
    ensures NoDup(Defined(xs))
  {
    if xs != [] {
      DefinedNoDup(xs[1..]);
      if xs[0].Some? {
        assert Some(xs[0].value) !in xs[1..];
      }
    }
  }

  lemma {:induction false} UndefinedsAtMostOne(xs: seq<Option<string>>)
    requires NoDup(xs)
    ensures |Undefineds(xs)| <= 1
  {
    if xs != [] {
      UndefinedsAtMostOne(xs[1..]);
      if xs[0] == None {
        assert None !in xs[1..];
      }
    }
  }

  /** Sorting cell values keeps exactly the same values. */
  lemma JsSortMembers(xs: seq<Option<string>>)
    ensures forall v :: v in JsSort(xs) <==> v in xs
  {
    var d := Defined(xs);
    var sorted := SortStrings(d);
    var r := JsSort(xs);
    var u := Undefineds(xs);
    assert r == Somes(sorted) + u;
    forall v | v in r ensures v in xs {
      if v.Some? && v in Somes(sorted) {
        assert v.value in multiset(sorted);
      }
    }
    forall v | v in xs ensures v in r {
      if v.Some? {
        assert v.value in multiset(d);
        var k :| 0 <= k < |sorted| && sorted[k] == v.value;
        assert r[k] == v;
      } else {
        assert r[|sorted|] == u[0];
      }
    }
  }

  /** Sorting distinct cell values gives strictly ascending values, `undefined` last. */
  lemma JsSortAscending(xs: seq<Option<string>>)
    requires NoDup(xs)
    ensures AscendingUndefinedLast(JsSort(xs))
  {
    var d := Defined(xs);
    var sorted := SortStrings(d);
    DefinedNoDup(xs);
    SortDistinct(d);
    UndefinedsAtMostOne(xs);
    var r := JsSort(xs);
    assert r == Somes(sorted) + Undefineds(xs);
    forall i, j | 0 <= i < j < |r| ensures r[i].Some? && (r[j].Some? ==> Lt(r[i].value, r[j].value)) {
      assert i < |sorted|;
    }
  }

  /**
   * Sorting distinct cell values keeps exactly the same values and gives an
   * ascending list with `undefined`, if present, last.
   */
  lemma JsSortDistinct(xs: seq<Option<string>>)
    requires NoDup(xs)
    ensures var r := JsSort(xs);
      && AscendingUndefinedLast(r)
      && NoDup(r)
      && forall v :: v in r <==> v in xs
  {
    JsSortMembers(xs);
    JsSortAscending(xs);
    var r := JsSort(xs);
    forall i, j | 0 <= i < j < |r| ensures r[i] != r[j] {
      if r[j].Some? {
        LtIrreflexive(r[i].value);
      }
    }
  }
}

=== FILE: js_string.dfy ===
/**
 * The JavaScript string operations the dashboard relies on: `split` and
 * `join` with a one-character separator, `includes`, and `toLowerCase`
 * restricted to ASCII letters.
 */
module JsString {

  /** Number of occurrences of the character `c` in `s`. */
  function CountChar(s: string, c: char): nat
  {
    if s == [] then 0 else (if s[0] == c then 1 else 0) + CountChar(s[1..], c)
  }

  /**
   * `s.split(c)`: the maximal pieces of `s` between occurrences of `c`.
   * An empty `s` gives one empty piece, as in JavaScript.
   */
  function Split(s: string, c: char): (pieces: seq<string>)
    ensures |pieces| == 1 + CountChar(s, c)
    ensures forall i :: 0 <= i < |pieces| ==> c !in pieces[i]
  {
    if s == [] then [[]]
    else
      var rest := Split(s[1..], c);
      if s[0] == c then [[]] + rest else [[s[0]] + rest[0]] + rest[1..]
  }

  /** `xs.join(c)`. */
  function Join(xs: seq<string>, c: char): string
  {
    if |xs| == 0 then []
    else if |xs| == 1 then xs[0]
    else xs[0] + [c] + Join(xs[1..], c)
  }

  /** Joining two non-empty lists puts one separator between them. */
  lemma {:induction false} JoinAppend(xs: seq<string>, ys: seq<string>, c: char)
    requires |xs| > 0 && |ys| > 0
    ensures Join(xs + ys, c) == Join(xs, c) + [c] + Join(ys, c)
  {
    if |xs| == 1 {
      assert (xs + ys)[1..] == ys;
    } else {
      assert (xs + ys)[1..] == xs[1..] + ys;
      JoinAppend(xs[1..], ys, c);
    }
  }

  /** Splitting at a separator splits the two sides independently. */
  lemma {:induction false} SplitAtSeparator(a: string, b: string, c: char)
    ensures Split(a + [c] + b, c) == Split(a, c) + Split(b, c)
  {
    if a == [] {
      assert a + [c] + b == [c] + b;
      assert ([c] + b)[1..] == b;
    } else {
      assert (a + [c] + b)[1..] == a[1..] + [c] + b;
      SplitAtSeparator(a[1..], b, c);
    }
  }

  /** A string without the separator is a single piece. */
  lemma {:induction false} SplitWithoutSeparator(s: string, c: char)
    requires c !in s
    ensures Split(s, c) == [s]
  {
    if s != [] {
      SplitWithoutSeparator(s[1..], c);
      assert [s[0]] + s[1..] == s;
    }
  }

  /** Joining the pieces of a split gives back the string. */
  lemma {:induction false} JoinSplit(s: string, c: char)
    ensures Join(Split(s, c), c) == s
  {
    if s != [] {
      var rest := Split(s[1..], c);
      JoinSplit(s[1..], c);
      if s[0] == c {
        assert Join([[]] + rest, c) == [] + [c] + Join(rest, c) by {
          assert ([[]] + rest)[1..] == rest;
        }
        assert [c] + s[1..] == s;
      } else {
        if |rest| == 1 {
          assert [s[0]] + s[1..] == s;
        } else {
          assert ([[s[0]] + rest[0]] + rest[1..])[1..] == rest[1..];
          assert Join(rest, c) == rest[0] + [c] + Join(rest[1..], c);
          assert [s[0]] + s[1..] == s;
        }
      }
    }
  }

  /** Splitting a join gives back the parts, provided no part holds the separator. */
  lemma {:induction false} SplitJoin(xs: seq<string>, c: char)
    requires |xs| > 0
    requires forall i :: 0 <= i < |xs| ==> c !in xs[i]
    ensures Split(Join(xs, c), c) == xs
  {
    SplitWithoutSeparator(xs[0], c);
    if |xs| > 1 {
      SplitJoin(xs[1..], c);
      SplitAtSeparator(xs[0], Join(xs[1..], c), c);
      assert [xs[0]] + xs[1..] == xs;
    }
  }

  /** A string that ends with the separator splits into pieces the last of which is empty. */
  lemma SplitTrailingSeparator(s: string, c: char)
    requires |s| > 0 && s[|s| - 1] == c
    ensures |Split(s, c)| >= 2 && Split(s, c)[|Split(s, c)| - 1] == []
  {
    var a := s[..|s| - 1];
    assert s == a + [c] + [];
    SplitAtSeparator(a, [], c);
  }

  /** `t` occurs in `s` starting at index `i`. */
  predicate OccursAt(s: string, t: string, i: nat)
  {
    i + |t| <= |s| && s[i..i + |t|] == t
  }

  /** `s.includes(t)`, searching from the left. */
  predicate Contains(s: string, t: string)
    decreases |s|
  {
    |t| <= |s| && (s[..|t|] == t || Contains(s[1..], t))
  }

  /** `includes` holds exactly when the needle occurs at some position. */
  lemma {:induction false} ContainsIff(s: string, t: string)
    ensures Contains(s, t) <==> exists i: nat :: OccursAt(s, t, i)
  {
    if |t| <= |s| {
      if s[..|t|] == t {
        assert OccursAt(s, t, 0);
      } else {
        ContainsIff(s[1..], t);
        if Contains(s[1..], t) {
          var i: nat :| OccursAt(s[1..], t, i);
          assert s[i + 1..i + 1 + |t|] == s[1..][i..i + |t|];
          assert OccursAt(s, t, i + 1);
        }
        if i: nat :| OccursAt(s, t, i) {
          assert i != 0;
          assert s[1..][i - 1..i - 1 + |t|] == s[i..i + |t|];
          assert OccursAt(s[1..], t, i - 1);
        }
      }
    }
  }

  /** `toLowerCase` on one character, ASCII letters only. */
  function LowerChar(c: char): char
  {
    if 'A' <= c <= 'Z' then (c as int + 32) as char else c
  }

  /** `toLowerCase`, ASCII letters only. */
  function AsciiLower(s: string): (r: string)
  {
    seq(|s|, i requires 0 <= i < |s| => LowerChar(s[i]))
  }

  /** Lower-casing leaves no upper-case ASCII letter, keeps the length, and is idempotent. */
  lemma AsciiLowerIdempotent(s: string)
    ensures |AsciiLower(s)| == |s|
    ensures forall i :: 0 <= i < |s| ==> !('A' <= AsciiLower(s)[i] <= 'Z')
    ensures AsciiLower(AsciiLower(s)) == AsciiLower(s)
  {
  }

  /** Lower-casing distributes over concatenation. */
  lemma AsciiLowerAppend(a: string, b: string)
    ensures AsciiLower(a + b) == AsciiLower(a) + AsciiLower(b)
  {
  }
}

=== FILE: parse_int.dfy ===
/**
 * JavaScript's `parseInt(s)` with no radix argument, as the dashboard uses it
 * on the "SLA Days" column, and `parseInt(s) || 0`.
 */
module JsParseInt {
  import opened Wrappers

  /** The WhiteSpace and LineTerminator code points skipped before the number. */
  predicate IsJsSpace(c: char)
  {
    var n := c as int;
    (0x09 <= n <= 0x0D) || n == 0x20 || n == 0xA0 || n == 0x1680
    || (0x2000 <= n <= 0x200A) || n == 0x2028 || n == 0x2029
    || n == 0x202F || n == 0x205F || n == 0x3000 || n == 0xFEFF
  }

  /** Drop the leading white space. */
  function TrimStart(s: string): (t: string)
    ensures |t| <= |s| && t == s[|s| - |t|..]
    ensures t == [] || !IsJsSpace(t[0])
    ensures forall i :: 0 <= i < |s| - |t| ==> IsJsSpace(s[i])
  {
    if s != [] && IsJsSpace(s[0]) then TrimStart(s[1..]) else s
  }

  /** The value of `c` as a digit in radixes up to 36; 36 when it is no digit at all. */
  function DigitValue(c: char): nat
  {
    if '0' <= c <= '9' then c as int - '0' as int
    else if 'a' <= c <= 'z' then c as int - 'a' as int + 10
    else if 'A' <= c <= 'Z' then c as int - 'A' as int + 10
    else 36
  }

  /** The longest prefix of `s` made of digits of the given radix. */
  function DigitRun(s: string, radix: nat): (d: string)
    ensures |d| <= |s| && d == s[..|d|]
    ensures forall i :: 0 <= i < |d| ==> DigitValue(d[i]) < radix
    ensures |d| == |s| || DigitValue(s[|d|]) >= radix
  {
    if s != [] && DigitValue(s[0]) < radix then [s[0]] + DigitRun(s[1..], radix) else []
  }

  /** The number a digit string denotes, most significant digit first. */
  function Value(d: string, radix: nat): nat
  {
    if d == [] then 0
    else Value(d[..|d| - 1], radix) * radix + DigitValue(d[|d| - 1])
  }

  /** The digits of the given radix at the start of `v`, read as a number; none gives NaN. */
  function LeadingValue(v: string, radix: nat): Option<nat>
  {
    var digits := DigitRun(v, radix);
    if digits == [] then None else Some(Value(digits, radix))
  }

  /** `0x` or `0X`, which switches `parseInt` to radix 16. */
  predicate HasHexPrefix(u: string)
  {
    |u| >= 2 && u[0] == '0' && (u[1] == 'x' || u[1] == 'X')
  }

  /** The unsigned part: hexadecimal after a `0x` prefix, decimal otherwise. */
  function ParseMagnitude(u: string): Option<nat>
  {
    if HasHexPrefix(u) then LeadingValue(u[2..], 16) else LeadingValue(u, 10)
  }

  /** An optional sign, then the unsigned part. */
  function ParseSigned(t: string): Option<int>
  {
    if |t| > 0 && t[0] == '-' then
      match ParseMagnitude(t[1..])
      case None => None
      case Some(m) => Some(-(m as int))
    else if |t| > 0 && t[0] == '+' then
      match ParseMagnitude(t[1..])
      case None => None
      case Some(m) => Some(m)
    else
      match ParseMagnitude(t)
      case None => None
      case Some(m) => Some(m)
  }

  /**
   * `parseInt(s)`: skip leading white space, read an optional sign, switch
   * to radix 16 after a `0x` or `0X` prefix, then read the longest run of
   * digits; no digits at all gives NaN, modelled as `None`.
   */
  function ParseInt(s: string): Option<int>
  {
    ParseSigned(TrimStart(s))
  }

  /** `parseInt(s) || 0`: NaN (and minus zero) become 0. */
  function ParseIntOrZero(s: string): int
  {
    match ParseInt(s)
    case None => 0
    case Some(v) => v
  }

  /** The decimal digit for `d`. */
  function DigitChar(d: nat): char
    requires d < 10
  {
    ('0' as int + d) as char
  }

  /** The decimal numeral of `n`, as JavaScript's `String(n)` writes it. */
  function DecimalString(n: nat): (s: string)
    ensures |s| > 0
    ensures forall i :: 0 <= i < |s| ==> DigitValue(s[i]) < 10
    ensures s[0] == '0' ==> n == 0
  {
    if n < 10 then [DigitChar(n)] else DecimalString(n / 10) + [DigitChar(n % 10)]
  }

  lemma {:induction false} ValueOfDecimal(n: nat)
    ensures Value(DecimalString(n), 10) == n
  {
    var s := DecimalString(n);
    if n < 10 {
      assert s[..0] == [];
    } else {
      ValueOfDecimal(n / 10);
      assert s[..|s| - 1] == DecimalString(n / 10);
    }
  }

  lemma {:induction false} DigitRunOfDigits(d: string, rest: string, radix: nat)
    requires forall i :: 0 <= i < |d| ==> DigitValue(d[i]) < radix
    requires rest == [] || DigitValue(rest[0]) >= radix
    ensures DigitRun(d + rest, radix) == d
  {
    if d != [] {
      assert (d + rest)[1..] == d[1..] + rest;
      DigitRunOfDigits(d[1..], rest, radix);
      assert [d[0]] + d[1..] == d;
    }
  }

  /**
   * The leading decimal integer is read back, whatever non-digit text
   * follows it ("12 days" gives 12). A zero followed by `x` is excluded: it
   * starts a hexadecimal literal.
   */
  lemma ParseIntDecimal(n: nat, rest: string)
    requires rest == [] || DigitValue(rest[0]) >= 10
    requires n == 0 ==> rest == [] || (rest[0] != 'x' && rest[0] != 'X')
    ensures ParseInt(DecimalString(n) + rest) == Some(n)
    ensures ParseInt(['-'] + (DecimalString(n) + rest)) == Some(-(n as int))
    ensures ParseInt(['+'] + (DecimalString(n) + rest)) == Some(n)
  {
    var s := DecimalString(n) + rest;
    MagnitudeOfDecimal(n, rest);
    UnsignedNumeral(s);
    SignedNumeral('-', s, n);
    SignedNumeral('+', s, n);
  }

  /** A text that starts with a digit is read as an unsigned numeral. */
  lemma UnsignedNumeral(s: string)
    requires |s| > 0 && DigitValue(s[0]) < 10
    ensures ParseInt(s) == ParseMagnitude(s)
  {
    DigitIsPlain(s[0]);
    assert TrimStart(s) == s;
  }

  lemma DigitIsPlain(c: char)
    requires DigitValue(c) < 10
    ensures !IsJsSpace(c) && c != '-' && c != '+'
  {
  }

  /** A sign in front of the unsigned part. */
  lemma SignedNumeral(sign: char, u: string, m: nat)
    requires sign == '-' || sign == '+'
    requires ParseMagnitude(u) == Some(m)
    ensures ParseInt([sign] + u) == Some(if sign == '-' then -(m as int) else m)
  {
    assert !IsJsSpace(sign);
    assert TrimStart([sign] + u) == [sign] + u;
    assert ([sign] + u)[1..] == u;
  }

  lemma MagnitudeOfDecimal(n: nat, rest: string)
    requires rest == [] || DigitValue(rest[0]) >= 10
    requires n == 0 ==> rest == [] || (rest[0] != 'x' && rest[0] != 'X')
    ensures ParseMagnitude(DecimalString(n) + rest) == Some(n)
  {
    var d := DecimalString(n);
    var s := d + rest;
    assert !HasHexPrefix(s);
    DigitRunOfDigits(d, rest, 10);
    ValueOfDecimal(n);
  }

  /** Leading white space does not change the result. */
  lemma {:induction false} ParseIntSkipsSpace(ws: string, s: string)
    requires forall i :: 0 <= i < |ws| ==> IsJsSpace(ws[i])
    ensures ParseInt(ws + s) == ParseInt(s)
  {
    TrimStartSkipsSpace(ws, s);
  }

  lemma {:induction false} TrimStartSkipsSpace(ws: string, s: string)
    requires forall i :: 0 <= i < |ws| ==> IsJsSpace(ws[i])
    ensures TrimStart(ws + s) == TrimStart(s)
  {
    if ws != [] {
      var tail := ws[1..];
      assert (ws + s)[0] == ws[0];
      assert (ws + s)[1..] == tail + s;
      assert forall i :: 0 <= i < |tail| ==> IsJsSpace(tail[i]) by {
        forall i | 0 <= i < |tail| ensures IsJsSpace(tail[i]) {
          assert tail[i] == ws[i + 1];
        }
      }
      TrimStartSkipsSpace(tail, s);
    } else {
      assert ws + s == s;
    }
  }

  /** A text that starts with no digit, sign or white space is NaN, so `|| 0` gives 0. */
  lemma ParseIntNoDigits(s: string)
    requires s == [] || (DigitValue(s[0]) >= 10 && !IsJsSpace(s[0]) && s[0] != '-' && s[0] != '+')
    ensures ParseInt(s) == None && ParseIntOrZero(s) == 0
  {
  }

  /** A missing cell reads as "undefined", which parses as NaN. */
  lemma ParseIntUndefined()
    ensures ParseIntOrZero("undefined") == 0
  {
    ParseIntNoDigits("undefined");
  }

  /** After `0x` or `0X` a run of hexadecimal digits is read in radix 16. */
  lemma HexNumeral(x: char, d: string)
    requires x == 'x' || x == 'X'
    requires d != [] && forall i :: 0 <= i < |d| ==> DigitValue(d[i]) < 16
    ensures ParseInt(['0', x] + d) == Some(Value(d, 16))
  {
    var u := ['0', x] + d;
    assert u[0] == '0' && u[1] == x && u[2..] == d;
    assert !IsJsSpace('0');
    assert TrimStart(u) == u;
    DigitRunOfDigits(d, [], 16);
    assert d + [] == d;
    assert LeadingValue(d, 16) == Some(Value(d, 16));
    assert ParseMagnitude(u) == Some(Value(d, 16));
  }

  /** `0x` switches to radix 16: "0x1A" is 26. */
  lemma ParseIntHexPrefix()
    ensures ParseInt("0x1A") == Some(26)
  {
    var d := "1A";
    HexNumeral('x', d);
    assert d[..1] == "1" && "1"[..0] == [];
    assert ['0', 'x'] + d == "0x1A";
  }
}

=== FILE: table.dfy ===
/**
 * The table's two text operations: the CSV download built from the cells
 * (`exportTableToCSV`) and the search box's row test.
 */
module Table {
  import opened JsString
  import Ingest

  /** `"${cell}"`: quotes around the cell, inner quotes left as they are. */
  function Quote(cell: string): string
  {
    "\"" + cell + "\""
  }

  function QuoteAll(cells: seq<string>): seq<string>
  {
    seq(|cells|, i requires 0 <= i < |cells| => Quote(cells[i]))
  }

  /** One table row as a CSV line: quoted cells joined by ",". */
  function ExportLine(cells: seq<string>): string
  {
    Join(QuoteAll(cells), ',')
  }

  function ExportLines(rows: seq<seq<string>>): seq<string>
  {
    seq(|rows|, i requires 0 <= i < |rows| => ExportLine(rows[i]))
  }

  /** The exported text: the rows' lines joined by "\n". */
  function ExportCsv(rows: seq<seq<string>>): string
  {
    Join(ExportLines(rows), '\n')
  }

  /** No cell holds the character `c`. */
  predicate Free(rows: seq<seq<string>>, c: char)
  {
    forall i, j :: 0 <= i < |rows| && 0 <= j < |rows[i]| ==> c !in rows[i][j]
  }

  /** A character that is neither the separator nor in any part is not in their join. */
  lemma {:induction false} JoinKeepsOut(xs: seq<string>, sep: char, c: char)
    requires c != sep
    requires forall i :: 0 <= i < |xs| ==> c !in xs[i]
    ensures c !in Join(xs, sep)
  {
    if |xs| > 1 {
      JoinKeepsOut(xs[1..], sep, c);
    }
  }

  lemma QuotedLineKeepsOut(cells: seq<string>, c: char)
    requires c != ',' && c != '"'
    requires forall j :: 0 <= j < |cells| ==> c !in cells[j]
    ensures c !in ExportLine(cells)
  {
    JoinKeepsOut(QuoteAll(cells), ',', c);
  }

  /**
   * When no cell holds a line break, the export has one line per table row,
   * and line i is row i's quoted cells joined by commas.
   */
  lemma ExportLineCount(rows: seq<seq<string>>)
    requires |rows| > 0 && Free(rows, '\n')
    ensures Split(ExportCsv(rows), '\n') == ExportLines(rows)
    ensures |Split(ExportCsv(rows), '\n')| == |rows|
  {
    forall i | 0 <= i < |rows| ensures '\n' !in ExportLines(rows)[i] {
      QuotedLineKeepsOut(rows[i], '\n');
    }
    SplitJoin(ExportLines(rows), '\n');
  }

  /** Strip the first and the last character of a field. */
  function Unquote(field: string): string
  {
    if |field| >= 2 then field[1..|field| - 1] else field
  }

  /**
   * Reading an export back with the dashboard's own tokenisation (lines on
   * "\n", cells on ",") and stripping the quote pair around each cell.
   */
  function ReadBack(text: string): seq<seq<string>>
  {
    var table := Ingest.Table(text);
    seq(|table|, i requires 0 <= i < |table| =>
      seq(|table[i]|, j requires 0 <= j < |table[i]| => Unquote(table[i][j])))
  }

  /**
   * The export reads back to the table's cells when no cell holds a comma or
   * a line break and no row is empty; a cell's own quotes survive because
   * only the outer pair is stripped.
   */
  lemma ExportRoundTrip(rows: seq<seq<string>>)
    requires |rows| > 0 && Free(rows, '\n') && Free(rows, ',')
    requires forall i :: 0 <= i < |rows| ==> |rows[i]| > 0
    ensures ReadBack(ExportCsv(rows)) == rows
  {
    ExportLineCount(rows);
    var text := ExportCsv(rows);
    var table := Ingest.Table(text);
    var back := ReadBack(text);
    forall i | 0 <= i < |rows| ensures back[i] == rows[i] {
      var quoted := QuoteAll(rows[i]);
      forall j | 0 <= j < |quoted| ensures ',' !in quoted[j] {
        assert quoted[j] == Quote(rows[i][j]);
      }
      SplitJoin(quoted, ',');
      assert table[i] == quoted;
      forall j | 0 <= j < |rows[i]| ensures back[i][j] == rows[i][j] {
        assert Unquote(Quote(rows[i][j])) == rows[i][j];
      }
    }
  }

  /** The search test: the row's lower-cased text contains the lower-cased query. */
  predicate Visible(rowText: string, query: string)
  {
    Contains(AsciiLower(rowText), AsciiLower(query))
  }

  /** A row is shown exactly when the query occurs in it, ignoring ASCII case. */
  lemma VisibleIff(rowText: string, query: string)
    ensures Visible(rowText, query) <==> exists i: nat :: OccursAt(AsciiLower(rowText), AsciiLower(query), i)
    ensures Visible(rowText, query) == Visible(AsciiLower(rowText), AsciiLower(query))
  {
    ContainsIff(AsciiLower(rowText), AsciiLower(query));
    AsciiLowerIdempotent(rowText);
    AsciiLowerIdempotent(query);
  }

  /** An empty search box shows every row. */
  lemma EmptyQueryShowsAll(rowText: string)
    ensures Visible(rowText, "")
  {
    VisibleIff(rowText, "");
    assert OccursAt(AsciiLower(rowText), AsciiLower(""), 0);
  }

  /** Typing more characters can only hide rows. */
  lemma LongerQueryHidesMore(rowText: string, query: string, more: string)
    requires Visible(rowText, query + more)
    ensures Visible(rowText, query)
  {
    var t := AsciiLower(rowText);
    VisibleIff(rowText, query + more);
    VisibleIff(rowText, query);
    AsciiLowerAppend(query, more);
    var q, m := AsciiLower(query), AsciiLower(more);
    var i: nat :| OccursAt(t, q + m, i);
    assert t[i..i + |q|] == (q + m)[..|q|] == q;
    assert OccursAt(t, q, i);
  }
}

=== FILE: wrappers.dfy ===
/** Option and Result, for JavaScript's `undefined` and for thrown errors. */
module Wrappers {

  /** A value that may be missing: `None` stands for JavaScript's `undefined`. */
  datatype Option<+T> = None | Some(value: T)

  /** The outcome of a computation that may throw. */
  datatype Result<+T, +E> = Success(value: T) | Failure(error: E)
}
